=== FILE: README.md ===
# Flight scraper core in Dafny

A model of the logic at the heart of the flight scraper `app.py`. It has three
parts.

- **The rolling-window rate limiter** `enforce_rate_limit`, modelled as a pure
  state transition over a clock reading and the list of stored request
  timestamps (`RateLimiter`). Each call:
  - prunes timestamps an hour old or older;
  - sleeps until one second after the oldest kept timestamp leaves the hour,
    when the quota of twenty is used up;
  - sleeps a further politeness delay between 5 and 10 seconds;
  - records the clock reading.

  The main result is an inductive invariant over every timestamp ever
  recorded. It shows that no one-hour window ever holds more than twenty
  requests, for calls made one after another, even though the list is not
  pruned again after the quota sleep.
- **The search-URL builder** `build_search_url` (`SearchUrl`). It joins the
  fixed prefix and the parameters `hl`, `tfs`, `q`, `d`, an optional `r` and
  `p` with `&`. `quote_plus` is modelled concretely (`FormEncoding`, `Utf8`).
  The model states a round trip: a parser that is not part of the scraper
  reads the URL back and recovers every argument when neither date holds `&`;
  an empty return date comes back as absent.
- **Record extraction and the outcome mapping** of `extract_flight_data` and
  `scrape_flights` (`Price`, `Extraction`, `Scraper`).
  - The HTML is abstracted to one record per flight container, holding what
    the CSS selectors find in it.
  - The price pattern `\$\d+(?:,\d+)?` is a verified leftmost-longest matcher.
  - The scrape maps each HTTP status or exception to a result or to an error
    message.

Supporting modules: `Options` (Python's `None`), `Decimal` (`str(int)` and its
inverse), `Text` (`"&".join`, `str.split` and prefix handling).

Two facts about the code that the model keeps:
- Only status 200 counts as success; any other status, 2xx included, is an error.
- Every container that does not raise yields a record; there is no completeness filter.

## Model

| member | source | states |
|---|---|---|
| RateLimiter.Prune | app.py:44-46 | every kept timestamp is less than an hour old and comes from the list; every such timestamp of the list is kept |
| RateLimiter.PruneAppend | app.py:46 | pruning treats each part of the list independently, so the survivors keep their original order |
| RateLimiter.PruneSortedIsSuffix | app.py:46 | on a time-ordered list pruning drops exactly a prefix of expired timestamps and keeps the newest ones unchanged |
| RateLimiter.QuotaWait | app.py:48-52 | with fewer than twenty kept there is no wait; with twenty or more the wait exceeds one second and ends exactly one second after the oldest kept timestamp leaves the hour |
| RateLimiter.EnforceRateLimit | app.py:40-60 | the stored list becomes the pruned list plus exactly one new last entry equal to the clock after both sleeps; that clock is the politeness delay after the call began when fewer than twenty are kept, and otherwise the delay after one second past the hour of the oldest kept timestamp, so between an hour plus 6 s and an hour plus 11 s after it |
| RateLimiter.CallAppendsOne | app.py:55-60 | one call grows the history by exactly its own timestamp, at least the minimum delay after the previous clock |
| RateLimiter.KeptAtMostQuota | app.py:46-49 | while the invariant holds, pruning leaves at most twenty timestamps |
| RateLimiter.CallPreservesInv | app.py:40-60 | one call, quota sleep included and without pruning again, keeps the history sorted, spaced an hour per twenty entries, and with the stored list as its newest part |
| RateLimiter.ReplayPreservesInv | app.py:40-60 | the invariant survives any sequence of calls and elapsed times |
| RateLimiter.SpacedWindowBound | app.py:35 | a sorted history in which entries twenty apart are an hour apart has at most twenty entries in any one-hour window |
| RateLimiter.HourlyQuotaHolds | app.py:40-60 | from start-up, after any sequence of calls and elapsed times, no one-hour window holds more than twenty requests, neither among all requests made nor among the stored timestamps |
| Decimal.IntToString | app.py:106 | the rendering is `str(int)`'s canonical form: all digits, a leading minus sign exactly for negatives, and no leading zero except for 0 itself |
| Decimal.IntRoundTrip | app.py:106 | the passenger count is read back unchanged from its decimal rendering |
| Utf8.EncodeChar | app.py:88 | a character takes one to four bytes, one exactly when it is ASCII, and the rest are continuation bytes |
| Utf8.DecodeFirst | app.py:88 | a decoded character is a Unicode scalar value written in its shortest form, using at most the bytes available |
| Utf8.DecodeEncode | app.py:88 | decoding gives back every string that was encoded |
| FormEncoding.QuotePlus | app.py:88 | the encoded text holds no `&`, `=` or space, and every `%` starts a complete escape that is not `%20` |
| FormEncoding.UnquoteQuotePlus | app.py:88 | decoding the form encoding gives back the original string, whatever characters it holds |
| Text.Join | app.py:109 | the joined text starts with the first part and is as long as the parts plus one separator between each two |
| Text.JoinLayout | app.py:109 | every part appears in the joined text in order at its offset, with a separator right before every part but the first |
| Text.SplitJoin | app.py:109 | splitting on `&` recovers the parameters when none of them contains `&` |
| SearchUrl.BuildSearchUrl | app.py:78-111 | the URL starts with the search prefix, `hl=en` and the fixed `tfs` token, and when the dates hold no `&` it reads back to the request, with a return date exactly when it was truthy |
| SearchUrl.RequestParams | app.py:87-106 | there are four varying parameters when a return date is given and truthy, three otherwise |
| SearchUrl.BuildUrlFixedPart | app.py:80-85 | the URL starts with the search prefix followed by `hl=en&tfs=…&`, and the varying parameters follow |
| SearchUrl.QueryTextSplits | app.py:88 | the first `%20to%20` in the query sits between the two encoded airports, so the query splits back into them |
| SearchUrl.ParseQueryRoundTrip | app.py:88 | the `q` parameter carries the encoded origin and then the encoded destination, both recoverable |
| SearchUrl.QuotePlusUpperCase | app.py:88 | a string of upper-case letters, such as an airport code, passes through `quote_plus` unchanged |
| SearchUrl.QuotePlusAirportCodes | app.py:88 | with upper-case airport codes the query is `Flights%20from%20`, the origin, `%20to%20` and the destination, the codes unchanged |
| Price.DigitRun | app.py:131 | the counted run is all digits and is followed by a non-digit or the end |
| Price.MatchEndLongest | app.py:131 | where a match starts, the greedy end gives a match and no longer match exists; where none starts, no text starting there matches |
| Price.Search | app.py:131 | the span found matches, no match starts earlier, and none starting there is longer; without a span nothing matches |
| Price.FindPrice | app.py:130-133 | no price exactly when no part of the label matches; otherwise the price is the leftmost, longest match and starts with `$` |
| Price.FirstCommaGroupOnly | app.py:131-133 | `$1,234,567` yields `$1,234`: only one comma group is kept |
| Extraction.ExtractPrice | app.py:126-133 | no price element gives no price; with one, no price exactly when its label has no match, otherwise the leftmost longest match |
| Extraction.ExtractRecord | app.py:126-161 | airline and duration are copied; departure and arrival are the first and second time texts, present exactly when that many exist; stops is the stop text or "Nonstop", never missing; the price is the one read off the container's price label |
| Extraction.ExtractFlights | app.py:113-166 | one record per container that does not raise, the k-th record built from the k-th such container |
| Extraction.ExtractFlightsAppend | app.py:124-164 | records come out in page order: the records of a page are those of its first part followed by those of the rest |
| Extraction.OneRecordPerContainer | app.py:152-161 | with no raising container there is no filtering: exactly one record per container, in order |
| Extraction.FaultyContainerSkipped | app.py:162-164 | a container whose processing raises contributes nothing and leaves the records of the others unchanged |
| Extraction.EmptyListingRecord | app.py:149-161 | a container in which nothing is found still yields a record, with every field missing except stops, which is "Nonstop" |
| Scraper.Respond | app.py:183-208 | a result exactly for status 200 with a parsable page, echoing the arguments and listing the extracted flights with a matching count; otherwise the error for a non-200 status, a request error or an unexpected error |
| Scraper.ScrapeFlights | app.py:168-208 | whatever the outcome, a timestamp is recorded after pruning, the politeness delay after the call began or after the quota sleep ends; the URL fetched reads back to the request; a result comes exactly from status 200 with a parsable page, echoes the airports, dates and current time, and counts its extracted flights; any other status, a request error and an unexpected error each give their own message |
| Scraper.ResultsCountMatches | app.py:190-200 | a result's count equals its number of flights, one per container that did not raise |
| Scraper.StatusInError | app.py:186-188 | a non-200 status gives an error with no flights, from whose message the status code reads back |
| Scraper.ErrorKindsDistinct | app.py:186-208 | the status, request and unexpected error messages cannot be confused by their prefixes |
| Scraper.Perform | app.py:168-208 | a search spends one rate-limiter call and records its time and outcome; idle time only advances the clock |
| Scraper.RunSession | app.py:168-176 | a session of searches drives the rate limiter exactly as the corresponding calls and elapsed times do |
| Scraper.SessionWithinHourlyQuota | app.py:168-176 | however searches are spaced, no hour of a session holds more than twenty requests |

## Left out

- RateLimiter.HourlyQuotaHolds, Scraper.SessionWithinHourlyQuota: calls are modelled one at a time, although the development server started by `app.run` handles requests on threads and `enforce_rate_limit` updates the shared timestamp list without a lock. Concurrent searches can each see fewer than twenty stored timestamps and all skip the quota sleep, and a timestamp appended between another call's pruning and its rebinding of the list can be lost; the hourly bound is not claimed for that case.
- Clock: `time.time` and `time.sleep` become a `real` clock that a sleep advances by exactly the requested amount. Floating-point rounding is not modelled. The clock never runs backwards (elapsed time is non-negative).
- Randomness: the politeness delay `random.uniform` is a parameter bounded by 5 and 10. The user-agent choice and `get_headers` are not modelled; they only build request headers.
- Network: `requests.get`, its timeout and its exceptions become a `fetch` parameter from URL to a response (status and page) or a request error with its message.
- HTML: BeautifulSoup and the CSS selectors are not modelled. A container is what the selectors find in it. A page whose parsing raises is a `ParserFault`; a container whose processing raises is `Faulty`.
- Text of exceptions: `str(e)` is the message carried by the error value.
- Dates: the `datetime` branches of `build_search_url` (`strftime`) are not modelled; dates are strings. The `timestamp` field is the opaque parameter `now`.
- SearchUrl.BuildSearchUrl: the read-back promise needs dates that contain no `&`, because the code does not escape them, and a date holding `&` makes the URL ambiguous.
- Price.IsPrice: `\d` is read as the ASCII digits; Python's `\d` on text also matches other Unicode decimal digits.
- FormEncoding.QuotePlus: follows Python's `quote_plus`, which keeps `~` and escapes `*`. The form encoding of the WHATWG URL Standard, section 5.2, does the opposite for these two characters.
- Flask routes `search_flights` and `health_check`, and the logging calls: request plumbing and output with no logic of their own.
- Idempotence or repeat calls: the model is pure, so calling a function twice with the same inputs gives the same result by construction.

=== FILE: decimal.dfy ===
/**
  Decimal rendering of integers, as Python's `str(int)` and f-string
  interpolation produce it (an optional minus sign, then digits with no
  leading zeros), together with the parser that undoes it.
 */
module Decimal {
  import opened Options

  predicate IsDigit(c: char) {
    '0' <= c <= '9'
  }

  predicate AllDigits(s: string) {
    forall k :: 0 <= k < |s| ==> IsDigit(s[k])
  }

  function DigitChar(d: nat): (c: char)
    requires d < 10
    ensures IsDigit(c)
  {
    ('0' as int + d) as char
  }

  function DigitValue(c: char): (d: nat)
    requires IsDigit(c)
    ensures d < 10
  {
    (c as int) - ('0' as int)
  }

  /** The decimal digits of `n`, most significant first. */
  function NatToString(n: nat): (s: string)
    ensures |s| >= 1 && AllDigits(s)
    ensures n >= 10 <==> |s| > 1
    ensures s[0] == '0' ==> s == "0"
    decreases n
  {
    if n < 10 then [DigitChar(n)] else NatToString(n / 10) + [DigitChar(n % 10)]
  }

  /** `str(n)` for a Python int. */
  function IntToString(n: int): (s: string)
    ensures |s| >= 1
    ensures forall k :: 0 <= k < |s| ==> IsDigit(s[k]) || (k == 0 && s[k] == '-' && n < 0)
    ensures (s[0] == '-') <==> n < 0
    ensures s[0] == '-' ==> |s| >= 2 && s[1] != '0'
    ensures s[0] == '0' ==> s == "0"
  {
    if n < 0 then "-" + NatToString(-n) else NatToString(n)
  }

  /** The value of a non-empty run of digits. */
  function DigitsValue(s: string): nat
    requires |s| >= 1 && AllDigits(s)
    decreases |s|
  {
    if |s| == 1 then DigitValue(s[0])
    else DigitsValue(s[..|s| - 1]) * 10 + DigitValue(s[|s| - 1])
  }

  /** Reads back an optionally signed run of digits, the inverse of `IntToString`. */
  function ParseInt(s: string): Option<int> {
    if |s| >= 2 && s[0] == '-' && AllDigits(s[1..]) then Some(0 - DigitsValue(s[1..]) as int)
    else if |s| >= 1 && AllDigits(s) then Some(DigitsValue(s))
    else None
  }

  lemma {:induction false} NatRoundTrip(n: nat)
    ensures DigitsValue(NatToString(n)) == n
    decreases n
  {
    if n >= 10 {
      var s := NatToString(n);
      NatRoundTrip(n / 10);
      assert s[..|s| - 1] == NatToString(n / 10);
    }
  }

  /** Rendering then parsing gives back the same integer, negative numbers included. */
  lemma IntRoundTrip(n: int)
    ensures ParseInt(IntToString(n)) == Some(n)
  {
    if n < 0 {
      NatRoundTrip(-n);
      assert IntToString(n)[1..] == NatToString(-n);
    } else {
      NatRoundTrip(n);
    }
  }
}

=== FILE: extraction.dfy ===
/**
  `extract_flight_data`: one record per flight container of the results page.

  The HTML parser and its CSS selectors are not modelled. A container is what
  the selectors find in it: the `aria-label` of the first element whose label
  contains `$`, the texts of the airline, duration and stops elements if
  present, and the texts of the time spans in document order. A container
  whose processing raises is `Faulty`; it is skipped, as the `except` clause
  skips it.
 */
module Extraction {
  import opened Options
  import Price

  datatype Container =
    | Listing(
        priceLabel: Option<string>,
        airline: Option<string>,
        times: seq<string>,
        duration: Option<string>,
        stops: Option<string>)
    | Faulty

  /** One flight as the scraper reports it. `stops` is always present. */
  datatype FlightRecord = FlightRecord(
    airline: Option<string>,
    departureTime: Option<string>,
    arrivalTime: Option<string>,
    duration: Option<string>,
    stops: string,
    price: Option<string>)

  const DefaultStops: string := "Nonstop"

  /** The price of a container: the first price-shaped text in its label. */
  function ExtractPrice(priceLabel: Option<string>): (r: Option<string>)
    ensures priceLabel.None? ==> r.None?
    ensures priceLabel.Some? ==>
              (r.None? <==> forall i, j :: 0 <= i <= j <= |priceLabel.value| ==> !Price.IsPrice(priceLabel.value[i..j]))
    ensures r.Some? ==> priceLabel.Some? && Price.IsPrice(r.value) && Price.IsLeftmostLongest(priceLabel.value, r.value)
  {
    match priceLabel
    case None => None
    case Some(text) => Price.FindPrice(text)
  }

  /** The record built from one container that did not raise. */
  function ExtractRecord(c: Container): (r: FlightRecord)
    requires c.Listing?
    ensures r.airline == c.airline && r.duration == c.duration
    ensures r.departureTime.Some? <==> |c.times| >= 1
    ensures r.departureTime.Some? ==> r.departureTime.value == c.times[0]
    ensures r.arrivalTime.Some? <==> |c.times| >= 2
    ensures r.arrivalTime.Some? ==> r.arrivalTime.value == c.times[1]
    ensures c.stops.Some? ==> r.stops == c.stops.value
    ensures c.stops.None? ==> r.stops == DefaultStops
    ensures r.price == ExtractPrice(c.priceLabel)
    ensures r.price.Some? ==> Price.IsPrice(r.price.value)
  {
    FlightRecord(
      c.airline,
      if |c.times| > 0 then Some(c.times[0]) else None,
      if |c.times| > 1 then Some(c.times[1]) else None,
      c.duration,
      if c.stops.Some? then c.stops.value else DefaultStops,
      ExtractPrice(c.priceLabel))
  }

  /** The containers that do not raise, in page order. */
  function Listings(cs: seq<Container>): (ls: seq<Container>)
    ensures |ls| <= |cs|
    ensures forall k :: 0 <= k < |ls| ==> ls[k].Listing?
    decreases |cs|
  {
    if cs == [] then []
    else if cs[0].Faulty? then Listings(cs[1..])
    else [cs[0]] + Listings(cs[1..])
  }

  /** The loop over the containers: a record for every container that does not raise. */
  function ExtractFlights(cs: seq<Container>): (r: seq<FlightRecord>)
    ensures |r| == |Listings(cs)|
    ensures forall k :: 0 <= k < |r| ==> r[k] == ExtractRecord(Listings(cs)[k])
    decreases |cs|
  {
    if cs == [] then []
    else if cs[0].Faulty? then ExtractFlights(cs[1..])
    else [ExtractRecord(cs[0])] + ExtractFlights(cs[1..])
  }

  // ---------------------------------------------------------------------------

  /** Records come out in page order: the records of a page split in two are
      the records of the first part followed by those of the second. */
  lemma {:induction false} ExtractFlightsAppend(a: seq<Container>, b: seq<Container>)
    ensures ExtractFlights(a + b) == ExtractFlights(a) + ExtractFlights(b)
    decreases |a|
  {
    if a == [] {
      assert a + b == b;
    } else {
      assert (a + b)[0] == a[0] && (a + b)[1..] == a[1..] + b;
      ExtractFlightsAppend(a[1..], b);
    }
  }

  /** No completeness filter: when no container raises, every container
      yields exactly one record, the k-th record coming from the k-th container. */
  lemma {:induction false} OneRecordPerContainer(cs: seq<Container>)
    requires forall k :: 0 <= k < |cs| ==> cs[k].Listing?
    ensures Listings(cs) == cs
    ensures |ExtractFlights(cs)| == |cs|
    ensures forall k :: 0 <= k < |cs| ==> ExtractFlights(cs)[k] == ExtractRecord(cs[k])
    decreases |cs|
  {
    if cs != [] {
      OneRecordPerContainer(cs[1..]);
      assert [cs[0]] + cs[1..] == cs;
    }
  }

  lemma FaultyGivesNothing()
    ensures ExtractFlights([Faulty]) == []
  {
    assert [Faulty][1..] == [];
  }

  /** A container that raises contributes nothing; the rest are unaffected. */
  lemma {:induction false} FaultyContainerSkipped(a: seq<Container>, b: seq<Container>)
    ensures ExtractFlights(a + [Faulty] + b) == ExtractFlights(a) + ExtractFlights(b)
  {
    var x, y := ExtractFlights(a), ExtractFlights(b);
    FaultyGivesNothing();
    ExtractFlightsAppend(a, [Faulty]);
    assert ExtractFlights(a + [Faulty]) == x + [];
    assert x + [] == x;
    ExtractFlightsAppend(a + [Faulty], b);
  }

  /** A container in which no selector matches still gives a record: every
      field is missing except `stops`, which reads "Nonstop". */
  lemma EmptyListingRecord()
    ensures ExtractFlights([Listing(None, None, [], None, None)])
            == [FlightRecord(None, None, None, None, DefaultStops, None)]
  {
  }
}

=== FILE: form_encoding.dfy ===
/**
  Python's `urllib.parse.quote_plus` with its default arguments: the string is
  encoded as UTF-8; letters, digits and `_.-~` are kept, a space becomes `+`
  and every other byte becomes `%XX` with upper-case hexadecimal digits.
  `UnquotePlus` is the inverse the round trip is stated with.
 */
module FormEncoding {
  import opened Options
  import Utf8

  type Byte = Utf8.Byte

  /** The bytes `quote` never escapes. */
  predicate AlwaysSafe(b: Byte) {
    || ('A' as int <= b <= 'Z' as int)
    || ('a' as int <= b <= 'z' as int)
    || ('0' as int <= b <= '9' as int)
    || b == '_' as int || b == '.' as int || b == '-' as int || b == '~' as int
  }

  /** Upper-case hexadecimal digit of `d`, as `quote` writes escapes. */
  function HexDigit(d: nat): (c: char)
    requires d < 16
    ensures HexValue(c) == Some(d)
  {
    if d < 10 then ('0' as int + d) as char else ('A' as int + d - 10) as char
  }

  function HexValue(c: char): Option<nat> {
    if '0' <= c <= '9' then Some(c as int - '0' as int)
    else if 'A' <= c <= 'F' then Some(c as int - 'A' as int + 10)
    else if 'a' <= c <= 'f' then Some(c as int - 'a' as int + 10)
    else None
  }

  /** The text one byte turns into. */
  function QuoteByte(b: Byte): (r: string)
    ensures |r| == 1 || (|r| == 3 && r[0] == '%')
  {
    if b == ' ' as int then "+"
    else if AlwaysSafe(b) then [b as char]
    else ['%', HexDigit(b / 16), HexDigit(b % 16)]
  }

  function QuoteBytes(bs: seq<Byte>): string
    decreases |bs|
  {
    if bs == [] then "" else QuoteByte(bs[0]) + QuoteBytes(bs[1..])
  }

  /** No escape is cut short, and none of them stands for a space. */
  predicate EscapesWellFormed(s: string) {
    forall i :: 0 <= i < |s| && s[i] == '%' ==> i + 2 < |s| && !(s[i + 1] == '2' && s[i + 2] == '0')
  }

  /** `quote_plus(s)`. */
  function QuotePlus(s: string): (r: string)
    ensures '&' !in r && '=' !in r && ' ' !in r
    ensures EscapesWellFormed(r)
  {
    QuoteBytesShape(Utf8.Encode(s));
    QuoteBytes(Utf8.Encode(s))
  }

  /** The bytes written by `s`: `+` is a space, `%XX` a byte, a safe character itself. */
  function UnquoteBytes(s: string): Option<seq<Byte>>
    decreases |s|
  {
    if s == [] then Some([])
    else
      var first: Option<(Byte, nat)> :=
        if s[0] == '+' then Some((' ' as int, 1))
        else if s[0] == '%' then
          if |s| < 3 then None
          else match (HexValue(s[1]), HexValue(s[2]))
            case (Some(hi), Some(lo)) => Some((hi * 16 + lo, 3))
            case _ => None
        else if (s[0] as int) < 256 && AlwaysSafe(s[0] as int) then Some((s[0] as int, 1))
        else None;
      match first
      case None => None
      case Some((b, n)) =>
        match UnquoteBytes(s[n..])
        case None => None
        case Some(rest) => Some([b] + rest)
  }

  /** The string `quote_plus` was applied to, if `s` is its output. */
  function UnquotePlus(s: string): Option<string> {
    match UnquoteBytes(s)
    case None => None
    case Some(bs) => Utf8.Decode(bs)
  }

  lemma QuoteByteShape(b: Byte)
    ensures var q := QuoteByte(b);
            && '&' !in q && '=' !in q && ' ' !in q
            && EscapesWellFormed(q)
  {
    if b != ' ' as int && !AlwaysSafe(b) {
      assert b == (b / 16) * 16 + b % 16;
    }
  }

  lemma EscapesAppend(a: string, b: string)
    requires EscapesWellFormed(a) && EscapesWellFormed(b)
    ensures EscapesWellFormed(a + b)
  {
    var r := a + b;
    forall i | 0 <= i < |r| && r[i] == '%'
      ensures i + 2 < |r| && !(r[i + 1] == '2' && r[i + 2] == '0')
    {
      if i < |a| {
        assert r[i] == a[i];
      } else {
        assert r[i] == b[i - |a|];
      }
    }
  }

  lemma {:induction false} QuoteBytesShape(bs: seq<Byte>)
    ensures var r := QuoteBytes(bs);
            && '&' !in r && '=' !in r && ' ' !in r
            && EscapesWellFormed(r)
    decreases |bs|
  {
    if bs != [] {
      QuoteBytesShape(bs[1..]);
      QuoteByteShape(bs[0]);
      EscapesAppend(QuoteByte(bs[0]), QuoteBytes(bs[1..]));
    }
  }

  lemma UnquoteQuotedByte(b: Byte, rest: string)
    ensures var q := QuoteByte(b);
            && |q| <= |q + rest|
            && (q + rest)[|q|..] == rest
            && (match UnquoteBytes(rest)
                case None => UnquoteBytes(q + rest).None?
                case Some(bs) => UnquoteBytes(q + rest) == Some([b] + bs))
  {
    var q := QuoteByte(b);
    var s := q + rest;
    assert s[|q|..] == rest;
    if b == ' ' as int {
      assert s[0] == '+';
    } else if AlwaysSafe(b) {
      assert s[0] == b as char;
    } else {
      assert b == (b / 16) * 16 + b % 16;
      assert s[0] == '%' && s[1] == HexDigit(b / 16) && s[2] == HexDigit(b % 16);
    }
  }

  lemma {:induction false} UnquoteQuoteBytes(bs: seq<Byte>)
    ensures UnquoteBytes(QuoteBytes(bs)) == Some(bs)
    decreases |bs|
  {
    if bs != [] {
      UnquoteQuoteBytes(bs[1..]);
      UnquoteQuotedByte(bs[0], QuoteBytes(bs[1..]));
      assert [bs[0]] + bs[1..] == bs;
    }
  }

  /** Unquoting undoes `quote_plus`, for every string. */
  lemma UnquoteQuotePlus(s: string)
    ensures UnquotePlus(QuotePlus(s)) == Some(s)
  {
    UnquoteQuoteBytes(Utf8.Encode(s));
    Utf8.DecodeEncode(s);
  }
}

=== FILE: options.dfy ===
/** Optional values: Python's `None` versus a present value, usable with `:-`. */
module Options {

  datatype Option<+T> = None | Some(value: T) {

    predicate IsFailure() {
      None?
    }

    function PropagateFailure<U>(): Option<U>
      requires None?
    {
      None
    }

    function Extract(): T
      requires Some?
    {
      value
    }
  }
}

=== FILE: price.dfy ===
/**
  The price pattern `\$\d+(?:,\d+)?` and `re.search` over it: a dollar sign,
  a run of digits, and at most one further group of a comma and digits.

  `re.search` reports the match that starts leftmost, and at that start the
  one its backtracking prefers. Both quantifiers here are greedy and nothing
  follows the optional group, so the preferred match is the longest one: a
  shorter digit run would be followed by a digit, which cannot begin the
  comma group. The contracts below therefore say "leftmost, then longest".
 */
module Price {
  import opened Options
  import opened Decimal

  /** Every position from `a` up to (not including) `b` holds a digit. */
  predicate DigitsBetween(w: string, a: nat, b: nat)
    requires a <= b <= |w|
  {
    forall p :: a <= p < b ==> IsDigit(w[p])
  }

  /** `w` is exactly a word of the pattern `\$\d+(?:,\d+)?`. */
  predicate IsPrice(w: string) {
    && |w| >= 2
    && w[0] == '$'
    && (|| DigitsBetween(w, 1, |w|)
        || exists c :: 2 <= c < |w| - 1 && w[c] == ',' && DigitsBetween(w, 1, c) && DigitsBetween(w, c + 1, |w|))
  }

  /** The length of the run of digits that starts at `i`. */
  function DigitRun(s: string, i: nat): (n: nat)
    requires i <= |s|
    ensures i + n <= |s|
    ensures forall p :: i <= p < i + n ==> IsDigit(s[p])
    ensures i + n == |s| || !IsDigit(s[i + n])
    decreases |s| - i
  {
    if i < |s| && IsDigit(s[i]) then 1 + DigitRun(s, i + 1) else 0
  }

  /** Where the greedy match starting at `i` ends, if one starts there. */
  function MatchEnd(s: string, i: nat): Option<nat>
    requires i <= |s|
  {
    if i < |s| && s[i] == '$' && DigitRun(s, i + 1) > 0 then
      var k := i + 1 + DigitRun(s, i + 1);
      if k < |s| && s[k] == ',' && DigitRun(s, k + 1) > 0 then Some(k + 1 + DigitRun(s, k + 1))
      else Some(k)
    else None
  }

  lemma PriceSlice(s: string, i: nat, j: nat, p: nat)
    requires i <= j <= |s| && p < j - i
    ensures s[i..j][p] == s[i + p]
  {
  }

  /** Nothing matches at `i` when `s[i]` is not a dollar sign followed by a digit. */
  lemma NoMatchWithoutLead(s: string, i: nat)
    requires i <= |s|
    requires MatchEnd(s, i).None?
    ensures forall j :: i <= j <= |s| ==> !IsPrice(s[i..j])
  {
    forall j | i <= j <= |s|
      ensures !IsPrice(s[i..j])
    {
      var v := s[i..j];
      if |v| >= 2 {
        PriceSlice(s, i, j, 0);
        PriceSlice(s, i, j, 1);
        if s[i] == '$' {
          assert !IsDigit(v[1]);
          assert !DigitsBetween(v, 1, |v|);
          assert forall c :: 2 <= c < |v| - 1 ==> !DigitsBetween(v, 1, c);
        }
      }
    }
  }

  /** The greedy match is a match. */
  lemma MatchEndMatches(s: string, i: nat)
    requires i <= |s| && MatchEnd(s, i).Some?
    ensures var e := MatchEnd(s, i).value;
            i < e <= |s| && IsPrice(s[i..e])
  {
    var e := MatchEnd(s, i).value;
    var k := i + 1 + DigitRun(s, i + 1);
    var w := s[i..e];
    PriceSlice(s, i, e, 0);
    if e == k {
      assert DigitsBetween(w, 1, |w|) by {
        forall p | 1 <= p < |w| ensures IsDigit(w[p]) {
          PriceSlice(s, i, e, p);
        }
      }
    } else {
      var c := k - i;
      PriceSlice(s, i, e, c);
      assert DigitsBetween(w, 1, c) && DigitsBetween(w, c + 1, |w|) by {
        forall p | 1 <= p < |w| && p != c ensures IsDigit(w[p]) {
          PriceSlice(s, i, e, p);
        }
      }
    }
  }

  /** No match starting at `i` runs past the greedy one. */
  lemma NothingLongerThanMatchEnd(s: string, i: nat, j: nat)
    requires i <= |s| && MatchEnd(s, i).Some?
    requires MatchEnd(s, i).value < j <= |s|
    ensures !IsPrice(s[i..j])
  {
    var e := MatchEnd(s, i).value;
    var k := i + 1 + DigitRun(s, i + 1);
    var v := s[i..j];
    PriceSlice(s, i, j, k - i);
    assert !DigitsBetween(v, 1, |v|);
    forall c | 2 <= c < |v| - 1
      ensures !(v[c] == ',' && DigitsBetween(v, 1, c) && DigitsBetween(v, c + 1, |v|))
    {
      PriceSlice(s, i, j, c);
      if c < k - i {
        PriceSlice(s, i, j, c);
        assert IsDigit(v[c]);
      } else if c > k - i {
        assert !DigitsBetween(v, 1, c);
      } else if v[c] == ',' {
        if e == k {
          PriceSlice(s, i, j, c + 1);
          assert !IsDigit(v[c + 1]);
        } else {
          PriceSlice(s, i, j, e - i);
          assert !IsDigit(v[e - i]);
        }
      }
    }
  }

  /** `MatchEnd` finds a match, and no longer match starts at the same place. */
  lemma MatchEndLongest(s: string, i: nat)
    requires i <= |s|
    ensures MatchEnd(s, i).Some? ==>
              var e := MatchEnd(s, i).value;
              && i < e <= |s| && IsPrice(s[i..e])
              && forall j :: e < j <= |s| ==> !IsPrice(s[i..j])
    ensures MatchEnd(s, i).None? ==> forall j :: i <= j <= |s| ==> !IsPrice(s[i..j])
  {
    if MatchEnd(s, i).None? {
      NoMatchWithoutLead(s, i);
    } else {
      MatchEndMatches(s, i);
      forall j | MatchEnd(s, i).value < j <= |s|
        ensures !IsPrice(s[i..j])
      {
        NothingLongerThanMatchEnd(s, i, j);
      }
    }
  }

  /** `re.search`: the span of the leftmost match at or after `from`, longest at its start. */
  function Search(s: string, from: nat): (r: Option<(nat, nat)>)
    requires from <= |s|
    ensures r.Some? ==>
              && from <= r.value.0 < r.value.1 <= |s|
              && IsPrice(s[r.value.0..r.value.1])
              && (forall j :: r.value.1 < j <= |s| ==> !IsPrice(s[r.value.0..j]))
              && (forall i, j :: from <= i < r.value.0 && i <= j <= |s| ==> !IsPrice(s[i..j]))
    ensures r.None? ==> forall i, j :: from <= i <= j <= |s| ==> !IsPrice(s[i..j])
    decreases |s| - from
  {
    MatchEndLongest(s, from);
    match MatchEnd(s, from)
    case Some(e) => Some((from, e))
    case None =>
      if from == |s| then None else Search(s, from + 1)
  }

  /** `price` is the text `re.search` reports in `s`: it is the match that
      starts leftmost, and the longest one starting there. */
  predicate IsLeftmostLongest(s: string, price: string) {
    exists i, j :: && 0 <= i < j <= |s| && s[i..j] == price
                   && IsPrice(s[i..j])
                   && (forall a, b :: 0 <= a < i && a <= b <= |s| ==> !IsPrice(s[a..b]))
                   && (forall b :: j < b <= |s| ==> !IsPrice(s[i..b]))
  }

  /** The price read off an `aria-label`: `price_match.group(0)`, or nothing without a match. */
  function FindPrice(ariaLabel: string): (r: Option<string>)
    ensures r.None? <==> forall i, j :: 0 <= i <= j <= |ariaLabel| ==> !IsPrice(ariaLabel[i..j])
    ensures r.Some? ==> IsPrice(r.value) && r.value[0] == '$'
    ensures r.Some? ==> IsLeftmostLongest(ariaLabel, r.value)
  {
    match Search(ariaLabel, 0)
    case None => None
    case Some((a, b)) => Some(ariaLabel[a..b])
  }

  /** `$1,234,567` keeps only the first comma group. */
  lemma FirstCommaGroupOnly()
    ensures FindPrice("$1,234,567") == Some("$1,234")
  {
    var s := "$1,234,567";
    assert DigitRun(s, 9) == 1 && DigitRun(s, 8) == 2 && DigitRun(s, 7) == 3;
    assert DigitRun(s, 6) == 0;
    assert DigitRun(s, 5) == 1 && DigitRun(s, 4) == 2 && DigitRun(s, 3) == 3;
    assert DigitRun(s, 2) == 0 && DigitRun(s, 1) == 1;
    assert MatchEnd(s, 0) == Some(6);
    assert s[0..6] == "$1,234";
  }
}

=== FILE: rate_limiter.dfy ===
/**
  The rolling-window rate limiter that every scrape passes through.

  The limiter's state is the current clock reading together with the list of
  request timestamps kept between calls. One call prunes timestamps that are an
  hour old or older, sleeps until one second after the oldest retained one
  leaves the hour when the hourly quota is used up, sleeps a further random "politeness" delay and
  finally records the clock reading as a new timestamp. Sleeping is modelled as
  advancing the clock by exactly the requested amount; the random delay is a
  parameter bounded like `random.uniform(MIN_WAIT_TIME, MAX_WAIT_TIME)`.
 */
module RateLimiter {

  /** Lower bound of the politeness delay, in seconds. */
  const MinWaitTime: real := 5.0
  /** Upper bound of the politeness delay, in seconds. */
  const MaxWaitTime: real := 10.0
  /** Most requests allowed inside one rolling window. */
  const MaxRequestsPerHour: nat := 20
  /** Length of the rolling window, in seconds. */
  const Window: real := 3600.0

  /** The clock reading and the timestamps kept between calls. */
  datatype Limiter = Limiter(clock: real, stamps: seq<real>)

  /** The limiter as it is when the process starts: no timestamps yet. */
  function Initial(start: real): Limiter {
    Limiter(start, [])
  }

  /** The things that can happen to the limiter: time passes, or a request
      goes through the limiter with the given politeness delay. */
  datatype Event = Elapse(seconds: real) | Call(jitter: real)

  predicate ValidJitter(jitter: real) {
    MinWaitTime <= jitter <= MaxWaitTime
  }

  /** Time never runs backwards and every delay is drawn from the bounded range. */
  predicate ValidEvent(e: Event) {
    match e
    case Elapse(seconds) => 0.0 <= seconds
    case Call(jitter) => ValidJitter(jitter)
  }

  predicate ValidEvents(evs: seq<Event>) {
    forall k :: 0 <= k < |evs| ==> ValidEvent(evs[k])
  }

  predicate Sorted(s: seq<real>) {
    forall i, j :: 0 <= i < j < |s| ==> s[i] <= s[j]
  }

  /** A timestamp still counts against the quota at time `now`. */
  predicate Recent(ts: real, now: real) {
    now - ts < Window
  }

  /** The pruning list comprehension: keep the timestamps that are less than an hour old. */
  function Prune(stamps: seq<real>, now: real): (r: seq<real>)
    ensures |r| <= |stamps|
    ensures forall k :: 0 <= k < |r| ==> Recent(r[k], now) && r[k] in stamps
    ensures forall k :: 0 <= k < |stamps| && Recent(stamps[k], now) ==> stamps[k] in r
    decreases |stamps|
  {
    if stamps == [] then []
    else (if Recent(stamps[0], now) then [stamps[0]] else []) + Prune(stamps[1..], now)
  }

  /** Seconds slept to wait for quota: until the oldest retained timestamp is
      more than an hour old, or nothing when fewer than the quota remain. */
  function QuotaWait(pruned: seq<real>, now: real): (w: real)
    requires forall k :: 0 <= k < |pruned| ==> Recent(pruned[k], now)
    ensures |pruned| < MaxRequestsPerHour ==> w == 0.0
    ensures |pruned| >= MaxRequestsPerHour ==> w > 1.0 && (now + w) - pruned[0] > Window
    ensures |pruned| >= MaxRequestsPerHour ==> now + w == pruned[0] + Window + 1.0
  {
    if |pruned| >= MaxRequestsPerHour then
      assert Recent(pruned[0], now);
      Window - (now - pruned[0]) + 1.0 else 0.0
  }

  /** One call of the limiter. The list is pruned once, before the quota
      wait, and is not pruned again before the new timestamp is appended. */
  function EnforceRateLimit(s: Limiter, jitter: real): (r: Limiter)
    requires ValidJitter(jitter)
    ensures var kept := Prune(s.stamps, s.clock);
            && r.stamps == kept + [r.clock]
            && s.clock + MinWaitTime <= r.clock
            && (|kept| < MaxRequestsPerHour ==> r.clock - s.clock <= MaxWaitTime)
            && (|kept| >= MaxRequestsPerHour ==> r.clock - kept[0] >= Window + 1.0 + MinWaitTime)
            && (|kept| >= MaxRequestsPerHour ==> r.clock - kept[0] <= Window + 1.0 + MaxWaitTime)
    ensures var kept := Prune(s.stamps, s.clock);
            r.clock == (if |kept| >= MaxRequestsPerHour then kept[0] + Window + 1.0 else s.clock) + jitter
  {
    var kept := Prune(s.stamps, s.clock);
    var awake := s.clock + QuotaWait(kept, s.clock);
    var stamped := awake + jitter;
    Limiter(stamped, kept + [stamped])
  }

  function Step(s: Limiter, e: Event): Limiter
    requires ValidEvent(e)
  {
    match e
    case Elapse(seconds) => Limiter(s.clock + seconds, s.stamps)
    case Call(jitter) => EnforceRateLimit(s, jitter)
  }

  /** The limiter together with every timestamp its calls have recorded so
      far, in order, including the ones since pruned away. */
  datatype Trace = Trace(limiter: Limiter, issued: seq<real>)

  /** The trace after a sequence of events. */
  function Replay(tr: Trace, evs: seq<Event>): Trace
    requires ValidEvents(evs)
    decreases |evs|
  {
    if evs == [] then tr
    else
      var next := Step(tr.limiter, evs[0]);
      var issued := tr.issued + (if evs[0].Call? then [next.clock] else []);
      Replay(Trace(next, issued), evs[1..])
  }

  /** Entries that are the quota or more positions apart are at least a window apart. */
  predicate Spaced(h: seq<real>) {
    forall i, j :: 0 <= i < j < |h| && i + MaxRequestsPerHour <= j ==> h[j] - h[i] >= Window
  }

  /** `ts` lies in the hour that ends at time `t`, by the limiter's own measure. */
  predicate InWindow(ts: real, t: real) {
    ts <= t && Recent(ts, t)
  }

  /** How many entries of `h` lie in the hour ending at `t`. */
  function CountInWindow(h: seq<real>, t: real): nat
    decreases |h|
  {
    if h == [] then 0 else (if InWindow(h[0], t) then 1 else 0) + CountInWindow(h[1..], t)
  }

  // ---------------------------------------------------------------------------
  // Pruning

  /** Pruning distributes over concatenation, so it keeps the survivors in their original order. */
  lemma {:induction false} PruneAppend(a: seq<real>, b: seq<real>, now: real)
    ensures Prune(a + b, now) == Prune(a, now) + Prune(b, now)
    decreases |a|
  {
    if a == [] {
      assert a + b == b;
    } else {
      assert (a + b)[1..] == a[1..] + b;
      PruneAppend(a[1..], b, now);
    }
  }

  /** When every timestamp is recent, pruning keeps the list as it is. */
  lemma {:induction false} PruneAllRecent(stamps: seq<real>, now: real)
    requires forall k :: 0 <= k < |stamps| ==> Recent(stamps[k], now)
    ensures Prune(stamps, now) == stamps
    decreases |stamps|
  {
    if stamps != [] {
      PruneAllRecent(stamps[1..], now);
      assert [stamps[0]] + stamps[1..] == stamps;
    }
  }

  /** On a sorted list pruning removes a prefix of expired timestamps and keeps the rest untouched. */
  lemma {:induction false} PruneSortedIsSuffix(stamps: seq<real>, now: real)
    requires Sorted(stamps)
    ensures var kept := Prune(stamps, now);
            && kept == stamps[|stamps| - |kept|..]
            && forall k :: 0 <= k < |stamps| - |kept| ==> !Recent(stamps[k], now)
    decreases |stamps|
  {
    if stamps == [] {
    } else if Recent(stamps[0], now) {
      assert forall k :: 0 <= k < |stamps| ==> stamps[0] <= stamps[k];
      PruneAllRecent(stamps, now);
    } else {
      assert Sorted(stamps[1..]);
      PruneSortedIsSuffix(stamps[1..], now);
      assert Prune(stamps, now) == Prune(stamps[1..], now);
    }
  }

  // ---------------------------------------------------------------------------
  // Counting timestamps in a window

  lemma {:induction false} CountAppend(a: seq<real>, b: seq<real>, t: real)
    ensures CountInWindow(a + b, t) == CountInWindow(a, t) + CountInWindow(b, t)
    decreases |a|
  {
    if a == [] {
      assert a + b == b;
    } else {
      assert (a + b)[1..] == a[1..] + b;
      CountAppend(a[1..], b, t);
    }
  }

  lemma {:induction false} CountAtMostLength(h: seq<real>, t: real)
    ensures CountInWindow(h, t) <= |h|
    decreases |h|
  {
    if h != [] {
      CountAtMostLength(h[1..], t);
    }
  }

  lemma {:induction false} CountOfLater(h: seq<real>, t: real)
    requires forall k :: 0 <= k < |h| ==> h[k] > t
    ensures CountInWindow(h, t) == 0
    decreases |h|
  {
    if h != [] {
      CountOfLater(h[1..], t);
    }
  }

  lemma SortedSpacedSuffix(h: seq<real>, from: nat)
    requires from <= |h|
    requires Sorted(h) && Spaced(h)
    ensures Sorted(h[from..]) && Spaced(h[from..])
  {
  }

  /** A sorted list whose entries are spaced by the quota never has more than
      the quota inside any one-hour window. */
  lemma {:induction false} SpacedWindowBound(h: seq<real>, t: real)
    requires Sorted(h) && Spaced(h)
    ensures CountInWindow(h, t) <= MaxRequestsPerHour
    decreases |h|
  {
    if h == [] {
    } else if !InWindow(h[0], t) {
      SortedSpacedSuffix(h, 1);
      SpacedWindowBound(h[1..], t);
    } else if |h| <= MaxRequestsPerHour {
      CountAtMostLength(h, t);
    } else {
      var head, tail := h[..MaxRequestsPerHour], h[MaxRequestsPerHour..];
      assert h == head + tail;
      CountAppend(head, tail, t);
      CountAtMostLength(head, t);
      assert forall k :: 0 <= k < |tail| ==> tail[k] == h[MaxRequestsPerHour + k];
      CountOfLater(tail, t);
    }
  }

  // ---------------------------------------------------------------------------
  // The inductive invariant

  /** `hist` is every timestamp ever recorded. It is sorted and spaced by the
      quota; the stored list is its newest part; everything older was pruned
      away at least an hour before the current clock; nothing lies in the future. */
  predicate Inv(s: Limiter, hist: seq<real>) {
    && Sorted(hist)
    && Spaced(hist)
    && |s.stamps| <= |hist|
    && s.stamps == hist[|hist| - |s.stamps|..]
    && (forall k :: 0 <= k < |hist| - |s.stamps| ==> !Recent(hist[k], s.clock))
    && (forall k :: 0 <= k < |hist| ==> hist[k] <= s.clock)
  }

  lemma InitialInv(start: real)
    ensures Inv(Initial(start), [])
  {
  }

  /** In a spaced history with nothing in the future, an entry followed by a
      full quota of later entries is already an hour old. */
  lemma QuotaOlderExpired(hist: seq<real>, now: real)
    requires Spaced(hist)
    requires forall k :: 0 <= k < |hist| ==> hist[k] <= now
    ensures forall i :: 0 <= i < |hist| && Recent(hist[i], now) ==> i + MaxRequestsPerHour >= |hist|
  {
    forall i | 0 <= i < |hist| && i + MaxRequestsPerHour < |hist|
      ensures !Recent(hist[i], now)
    {
      assert hist[|hist| - 1] <= now;
    }
  }

  /** Once pruned, at most the quota remains: the entry after the quota ones
      would be an hour younger than the oldest, i.e. in the future. */
  lemma KeptAtMostQuota(s: Limiter, hist: seq<real>)
    requires Inv(s, hist)
    ensures |Prune(s.stamps, s.clock)| <= MaxRequestsPerHour
  {
    var kept := Prune(s.stamps, s.clock);
    assert Sorted(s.stamps);
    PruneSortedIsSuffix(s.stamps, s.clock);
    QuotaOlderExpired(hist, s.clock);
    if kept != [] {
      var base := |hist| - |kept|;
      assert kept[0] == hist[base];
    }
  }

  /** Appending `t` to a history whose newest `m` entries are the ones kept
      at time `now` keeps the invariant, provided `t` is at least the minimum
      delay later and, with a full quota kept, more than a window after the oldest kept. */
  lemma AppendPreservesInv(hist: seq<real>, m: nat, now: real, t: real)
    requires Sorted(hist) && Spaced(hist)
    requires m <= |hist| && m <= MaxRequestsPerHour
    requires forall k :: 0 <= k < |hist| ==> hist[k] <= now
    requires forall k :: 0 <= k < |hist| - m ==> !Recent(hist[k], now)
    requires now + MinWaitTime <= t
    requires m == MaxRequestsPerHour ==> t - hist[|hist| - m] > Window
    ensures Inv(Limiter(t, hist[|hist| - m..] + [t]), hist + [t])
  {
    var h' := hist + [t];
    var n := |hist|;
    assert hist[n - m..] + [t] == h'[|h'| - (m + 1)..];
    forall i, j | 0 <= i < j < |h'| && i + MaxRequestsPerHour <= j
      ensures h'[j] - h'[i] >= Window
    {
      if j < n {
        assert h'[j] == hist[j] && h'[i] == hist[i];
      } else if i >= n - m {
        assert h'[i] == hist[n - m];
      } else {
        assert !Recent(hist[i], now);
      }
    }
  }

  /** The kept timestamps are the newest part of the history, and everything
      older than them is expired. */
  lemma KeptIsNewest(hist: seq<real>, stored: seq<real>, kept: seq<real>, now: real)
    requires |stored| <= |hist| && stored == hist[|hist| - |stored|..]
    requires |kept| <= |stored| && kept == stored[|stored| - |kept|..]
    requires forall k :: 0 <= k < |hist| - |stored| ==> !Recent(hist[k], now)
    requires forall k :: 0 <= k < |stored| - |kept| ==> !Recent(stored[k], now)
    ensures kept == hist[|hist| - |kept|..]
    ensures forall k :: 0 <= k < |hist| - |kept| ==> !Recent(hist[k], now)
  {
    var base := |hist| - |stored|;
    forall k | base <= k < |hist| - |kept|
      ensures !Recent(hist[k], now)
    {
      assert hist[k] == stored[k - base];
    }
  }

  /** A call keeps the invariant, with its new timestamp added to the history. */
  lemma CallPreservesInv(s: Limiter, hist: seq<real>, jitter: real)
    requires Inv(s, hist) && ValidJitter(jitter)
    ensures var r := EnforceRateLimit(s, jitter);
            Inv(r, hist + [r.clock])
  {
    var r := EnforceRateLimit(s, jitter);
    var kept := Prune(s.stamps, s.clock);
    assert Sorted(s.stamps) by {
      SortedSpacedSuffix(hist, |hist| - |s.stamps|);
    }
    PruneSortedIsSuffix(s.stamps, s.clock);
    KeptAtMostQuota(s, hist);
    KeptIsNewest(hist, s.stamps, kept, s.clock);
    AppendPreservesInv(hist, |kept|, s.clock, r.clock);
  }

  lemma StepPreservesInv(tr: Trace, e: Event)
    requires ValidEvent(e) && Inv(tr.limiter, tr.issued)
    ensures var next := Step(tr.limiter, e);
            Inv(next, tr.issued + (if e.Call? then [next.clock] else []))
  {
    if e.Call? {
      CallPreservesInv(tr.limiter, tr.issued, e.jitter);
    } else {
      assert tr.issued + [] == tr.issued;
    }
  }

  lemma {:induction false} ReplayPreservesInv(tr: Trace, evs: seq<Event>)
    requires ValidEvents(evs) && Inv(tr.limiter, tr.issued)
    ensures var r := Replay(tr, evs);
            Inv(r.limiter, r.issued)
    decreases |evs|
  {
    if evs != [] {
      var next := Step(tr.limiter, evs[0]);
      var issued := tr.issued + (if evs[0].Call? then [next.clock] else []);
      assert ValidEvents(evs[1..]) by {
        assert forall k :: 0 <= k < |evs[1..]| ==> evs[1..][k] == evs[k + 1];
      }
      StepPreservesInv(tr, evs[0]);
      ReplayPreservesInv(Trace(next, issued), evs[1..]);
    }
  }

  /** The stored list is part of the history, so it never holds more in a window either. */
  lemma StoredWithinQuota(s: Limiter, hist: seq<real>, t: real)
    requires Inv(s, hist)
    ensures CountInWindow(s.stamps, t) <= MaxRequestsPerHour
  {
    var older := hist[..|hist| - |s.stamps|];
    assert hist == older + s.stamps;
    CountAppend(older, s.stamps, t);
    SpacedWindowBound(hist, t);
  }

  /** The limiter's promise: whatever the elapsed times and delays, no
      one-hour window ever contains more than the quota of recorded requests,
      neither among all requests ever made nor among the stored timestamps. */
  lemma HourlyQuotaHolds(start: real, evs: seq<Event>, t: real)
    requires ValidEvents(evs)
    ensures var r := Replay(Trace(Initial(start), []), evs);
            && CountInWindow(r.issued, t) <= MaxRequestsPerHour
            && CountInWindow(r.limiter.stamps, t) <= MaxRequestsPerHour
  {
    var r := Replay(Trace(Initial(start), []), evs);
    InitialInv(start);
    ReplayPreservesInv(Trace(Initial(start), []), evs);
    SpacedWindowBound(r.issued, t);
    StoredWithinQuota(r.limiter, r.issued, t);
  }

  /** Each call records exactly one timestamp: the clock after both sleeps, as the newest entry. */
  lemma CallAppendsOne(tr: Trace, jitter: real)
    requires ValidJitter(jitter)
    ensures var r := Replay(tr, [Call(jitter)]);
            && |r.limiter.stamps| == |Prune(tr.limiter.stamps, tr.limiter.clock)| + 1
            && r.limiter.stamps[|r.limiter.stamps| - 1] == r.limiter.clock
            && r.issued == tr.issued + [r.limiter.clock]
            && r.limiter.clock >= tr.limiter.clock + MinWaitTime
  {
  }
}

=== FILE: scraper.dfy ===
/**
  `scrape_flights`: wait for the rate limiter, build the search URL, fetch it
  and turn the response into either a result or an error.

  The HTTP request is a parameter `fetch` from URL to what came back: a
  response with its status code and page, or a request error with its
  message. A page whose parsing raises stands for the `except Exception`
  path. The current time, `datetime.now().isoformat()`, is the parameter `now`.
 */
module Scraper {
  import opened Options
  import Decimal
  import RateLimiter
  import SearchUrl
  import Extraction

  /** What the page parser made of a response body. */
  datatype Page =
    | Parsed(containers: seq<Extraction.Container>)
    | ParserFault(message: string)

  /** What `requests.get` gave back. */
  datatype FetchResult =
    | Response(status: int, page: Page)
    | RequestError(message: string)

  /** The dictionary `scrape_flights` returns: the search result, or `{"error": …}`. */
  datatype Outcome =
    | Found(
        origin: string,
        destination: string,
        date: string,
        returnDate: Option<string>,
        flights: seq<Extraction.FlightRecord>,
        timestamp: string,
        resultsCount: nat)
    | Failed(error: string)

  /** The outcome together with the rate limiter's state afterwards and the URL fetched. */
  datatype Scrape = Scrape(limiter: RateLimiter.Limiter, url: string, outcome: Outcome)

  const StatusPrefix: string := "Failed to fetch data: Status code "
  const RequestErrorPrefix: string := "Request error: "
  const UnexpectedErrorPrefix: string := "Unexpected error: "

  /** Only status 200 counts as success. */
  const StatusOk: int := 200

  /** The outcome for a given response, after the request was made. */
  function Respond(req: SearchUrl.SearchRequest, fetched: FetchResult, now: string): (r: Outcome)
    ensures r.Found? <==> fetched.Response? && fetched.status == StatusOk && fetched.page.Parsed?
    ensures r.Found? ==>
              && r.origin == req.origin && r.destination == req.destination
              && r.date == req.date && r.returnDate == req.returnDate
              && r.timestamp == now
              && r.flights == Extraction.ExtractFlights(fetched.page.containers)
              && r.resultsCount == |r.flights|
    ensures fetched.Response? && fetched.status != StatusOk ==>
              r == Failed(StatusPrefix + Decimal.IntToString(fetched.status))
    ensures fetched.RequestError? ==> r == Failed(RequestErrorPrefix + fetched.message)
    ensures fetched.Response? && fetched.status == StatusOk && fetched.page.ParserFault? ==>
              r == Failed(UnexpectedErrorPrefix + fetched.page.message)
  {
    match fetched
    case RequestError(message) => Failed(RequestErrorPrefix + message)
    case Response(status, page) =>
      if status != StatusOk then Failed(StatusPrefix + Decimal.IntToString(status))
      else
        match page
        case ParserFault(message) => Failed(UnexpectedErrorPrefix + message)
        case Parsed(containers) =>
          var flights := Extraction.ExtractFlights(containers);
          Found(req.origin, req.destination, req.date, req.returnDate, flights, now, |flights|)
  }

  /** `scrape_flights(origin, destination, date, return_date, adults)`. The
      rate limiter runs first, whatever happens afterwards, and the URL that
      is fetched is the one `build_search_url` makes for the request. */
  function ScrapeFlights(
    s: RateLimiter.Limiter,
    jitter: real,
    req: SearchUrl.SearchRequest,
    fetch: string -> FetchResult,
    now: string): (r: Scrape)
    requires RateLimiter.ValidJitter(jitter)
    ensures r.limiter.stamps == RateLimiter.Prune(s.stamps, s.clock) + [r.limiter.clock]
    ensures var kept := RateLimiter.Prune(s.stamps, s.clock);
            r.limiter.clock
            == (if |kept| >= RateLimiter.MaxRequestsPerHour then kept[0] + RateLimiter.Window + 1.0 else s.clock) + jitter
    ensures r.limiter.clock >= s.clock + RateLimiter.MinWaitTime
    ensures SearchUrl.DatesWithoutAmpersand(req) ==> SearchUrl.ParseSearchUrl(r.url) == Some(SearchUrl.Normalize(req))
    ensures r.outcome.Found? <==>
              fetch(r.url).Response? && fetch(r.url).status == StatusOk && fetch(r.url).page.Parsed?
    ensures r.outcome.Found? ==>
              && r.outcome.origin == req.origin && r.outcome.destination == req.destination
              && r.outcome.date == req.date && r.outcome.returnDate == req.returnDate
              && r.outcome.timestamp == now
              && r.outcome.flights == Extraction.ExtractFlights(fetch(r.url).page.containers)
              && r.outcome.resultsCount == |r.outcome.flights|
    ensures fetch(r.url).Response? && fetch(r.url).status != StatusOk ==>
              r.outcome == Failed(StatusPrefix + Decimal.IntToString(fetch(r.url).status))
    ensures fetch(r.url).RequestError? ==> r.outcome == Failed(RequestErrorPrefix + fetch(r.url).message)
    ensures fetch(r.url).Response? && fetch(r.url).status == StatusOk && fetch(r.url).page.ParserFault? ==>
              r.outcome == Failed(UnexpectedErrorPrefix + fetch(r.url).page.message)
  {
    var limiter := RateLimiter.EnforceRateLimit(s, jitter);
    var url := SearchUrl.BuildSearchUrl(req);
    Scrape(limiter, url, Respond(req, fetch(url), now))
  }

  // ---------------------------------------------------------------------------

  /** Every result reports as many results as it lists flights, one per
      container that did not raise. */
  lemma ResultsCountMatches(req: SearchUrl.SearchRequest, fetched: FetchResult, now: string)
    requires Respond(req, fetched, now).Found?
    ensures var r := Respond(req, fetched, now);
            && r.resultsCount == |r.flights|
            && r.resultsCount == |Extraction.Listings(fetched.page.containers)|
  {
  }

  /** The status code can be read back from the error a failed response gives. */
  lemma StatusInError(req: SearchUrl.SearchRequest, status: int, page: Page, now: string)
    requires status != StatusOk
    ensures var r := Respond(req, Response(status, page), now);
            && r.Failed?
            && |StatusPrefix| <= |r.error|
            && r.error[..|StatusPrefix|] == StatusPrefix
            && Decimal.ParseInt(r.error[|StatusPrefix|..]) == Some(status)
  {
    var r := Respond(req, Response(status, page), now);
    assert r.error[|StatusPrefix|..] == Decimal.IntToString(status);
    Decimal.IntRoundTrip(status);
  }

  /** The three kinds of error cannot be mistaken for one another. */
  lemma ErrorKindsDistinct(a: string, b: string, c: string)
    ensures !(StatusPrefix <= RequestErrorPrefix + b)
    ensures !(StatusPrefix <= UnexpectedErrorPrefix + c)
    ensures !(RequestErrorPrefix <= StatusPrefix + a)
    ensures !(RequestErrorPrefix <= UnexpectedErrorPrefix + c)
    ensures !(UnexpectedErrorPrefix <= StatusPrefix + a)
    ensures !(UnexpectedErrorPrefix <= RequestErrorPrefix + b)
  {
    assert (StatusPrefix + a)[0] == 'F';
    assert (RequestErrorPrefix + b)[0] == 'R';
    assert (UnexpectedErrorPrefix + c)[0] == 'U';
  }

  /** A sequence of scrapes, one per event: between them time passes, and
      each scrape spends one rate-limiter call. */
  datatype Session = Session(trace: RateLimiter.Trace, outcomes: seq<Outcome>)

  datatype Activity =
    | Idle(seconds: real)
    | Search(jitter: real, req: SearchUrl.SearchRequest, fetched: FetchResult, now: string)

  predicate ValidActivity(a: Activity) {
    match a
    case Idle(seconds) => seconds >= 0.0
    case Search(jitter, _, _, _) => RateLimiter.ValidJitter(jitter)
  }

  /** The rate-limiter event an activity amounts to. */
  function EventOf(a: Activity): (e: RateLimiter.Event)
    requires ValidActivity(a)
    ensures RateLimiter.ValidEvent(e)
    ensures e.Call? <==> a.Search?
  {
    match a
    case Idle(seconds) => RateLimiter.Elapse(seconds)
    case Search(jitter, _, _, _) => RateLimiter.Call(jitter)
  }

  function Events(acts: seq<Activity>): (evs: seq<RateLimiter.Event>)
    requires forall k :: 0 <= k < |acts| ==> ValidActivity(acts[k])
    ensures |evs| == |acts|
    ensures RateLimiter.ValidEvents(evs)
    decreases |acts|
  {
    if acts == [] then [] else [EventOf(acts[0])] + Events(acts[1..])
  }

  /** One activity: time passing, or a search through `ScrapeFlights` whose
      request time is recorded and whose outcome is kept. */
  function Perform(ss: Session, a: Activity): (r: Session)
    requires ValidActivity(a)
    ensures r.trace.limiter == RateLimiter.Step(ss.trace.limiter, EventOf(a))
    ensures r.trace.issued == ss.trace.issued + (if a.Search? then [r.trace.limiter.clock] else [])
    ensures a.Idle? ==> r.outcomes == ss.outcomes
    ensures a.Search? ==>
              r.outcomes == ss.outcomes + [Respond(a.req, a.fetched, a.now)]
  {
    match a
    case Idle(seconds) =>
      var tr := RateLimiter.Trace(RateLimiter.Step(ss.trace.limiter, RateLimiter.Elapse(seconds)), ss.trace.issued);
      Session(tr, ss.outcomes)
    case Search(jitter, req, fetched, now) =>
      var scrape := ScrapeFlights(ss.trace.limiter, jitter, req, _ => fetched, now);
      var tr := RateLimiter.Trace(scrape.limiter, ss.trace.issued + [scrape.limiter.clock]);
      Session(tr, ss.outcomes + [scrape.outcome])
  }

  /** Runs the activities one after another. */
  function RunSession(ss: Session, acts: seq<Activity>): (r: Session)
    requires forall k :: 0 <= k < |acts| ==> ValidActivity(acts[k])
    ensures r.trace == RateLimiter.Replay(ss.trace, Events(acts))
    decreases |acts|
  {
    if acts == [] then ss
    else
      assert ValidActivity(acts[0]);
      assert Events(acts)[0] == EventOf(acts[0]) && Events(acts)[1..] == Events(acts[1..]);
      RunSession(Perform(ss, acts[0]), acts[1..])
  }

  /** However the searches of a session are spaced, no hour holds more than
      twenty requests, and the limiter never stores more than twenty. */
  lemma SessionWithinHourlyQuota(start: real, acts: seq<Activity>, t: real)
    requires forall k :: 0 <= k < |acts| ==> ValidActivity(acts[k])
    ensures var r := RunSession(Session(RateLimiter.Trace(RateLimiter.Initial(start), []), []), acts);
            && RateLimiter.CountInWindow(r.trace.issued, t) <= RateLimiter.MaxRequestsPerHour
            && RateLimiter.CountInWindow(r.trace.limiter.stamps, t) <= RateLimiter.MaxRequestsPerHour
  {
    RateLimiter.HourlyQuotaHolds(start, Events(acts), t);
  }
}

=== FILE: search_url.dfy ===
/**
  `build_search_url`: the flight-search URL, a fixed prefix followed by the
  parameters `hl`, `tfs`, `q`, `d`, an optional `r` and `p`, joined with `&`.
  Dates are strings here (the `datetime` branch is not modelled).
  `ParseSearchUrl` takes such a URL apart again and is what the round trip is
  stated with; it is not part of the scraper.
 */
module SearchUrl {
  import opened Options
  import Text
  import Decimal
  import FormEncoding
  import Utf8

  const BaseUrl: string := "https://www.google.com/travel/flights"
  const SearchPrefix: string := BaseUrl + "/search?"
  /** The opaque encoded-search token the scraper always sends. */
  const TfsToken: string := "CAEQARoKEggSBAj-ARABGAEaaRIHCgNBTlkSAhIBGhIKCC9tLzBsNHdrEghMYSBHdWFyZBIHCgNBTlkSAhIBGhIKCAIEEgYI_gEQAhoGCgQQAhAAIhIKCC9tLzBsNHdrEghMYSBHdWFyZCoSCggCBBIGCP4BEAIaBggEEAIQAA"
  const QueryLead: string := "Flights%20from%20"
  const QueryJoint: string := "%20to%20"

  /** The arguments of a search. `returnDate` is `None` for Python's `None`. */
  datatype SearchRequest = SearchRequest(
    origin: string,
    destination: string,
    date: string,
    returnDate: Option<string>,
    adults: int)

  /** `if return_date:` — present and not the empty string. */
  predicate HasReturn(req: SearchRequest) {
    req.returnDate.Some? && req.returnDate.value != ""
  }

  /** The free-text query naming both airports, each `quote_plus`-encoded. */
  function QueryText(origin: string, destination: string): string {
    QueryLead + FormEncoding.QuotePlus(origin) + QueryJoint + FormEncoding.QuotePlus(destination)
  }

  /** The parameters that vary with the request: `q`, `d`, the optional `r` and `p`. */
  function RequestParams(req: SearchRequest): (ps: seq<string>)
    ensures |ps| == if HasReturn(req) then 4 else 3
  {
    ["q=" + QueryText(req.origin, req.destination), "d=" + req.date]
    + (if HasReturn(req) then ["r=" + req.returnDate.value] else [])
    + ["p=" + Decimal.IntToString(req.adults)]
  }

  /** All parameters in the order they are appended, for a given `tfs` token. */
  function Params(tfs: string, req: SearchRequest): seq<string> {
    ["hl=en", "tfs=" + tfs] + RequestParams(req)
  }

  /** The URL for a given `tfs` token. */
  function BuildUrl(tfs: string, req: SearchRequest): string {
    SearchPrefix + Text.Join(Params(tfs, req), '&')
  }

  /** Neither date contains `&`, which the URL does not escape. */
  predicate DatesWithoutAmpersand(req: SearchRequest) {
    && '&' !in req.date
    && (req.returnDate.Some? ==> '&' !in req.returnDate.value)
  }

  /** `build_search_url(origin, destination, date, return_date, adults)`:
      the fixed part, then parameters from which the request can be read back. */
  function BuildSearchUrl(req: SearchRequest): (url: string)
    ensures FixedPart(TfsToken) <= url
    ensures DatesWithoutAmpersand(req) ==> ParseSearchUrl(url) == Some(Normalize(req))
  {
    BuildUrlFixedPart(TfsToken, req);
    if DatesWithoutAmpersand(req) then
      ParseBuildUrl(TfsToken, req);
      BuildUrl(TfsToken, req)
    else
      BuildUrl(TfsToken, req)
  }

  /** The text in front of the parameters that vary: the prefix and the two
      fixed parameters, each followed by `&`. */
  function FixedPart(tfs: string): string {
    SearchPrefix + "hl=en" + "&" + "tfs=" + tfs + "&"
  }

  /** The request the varying parameters stand for. */
  function ParseRequestParams(ps: seq<string>): Option<SearchRequest> {
    if !(|ps| == 3 || |ps| == 4) then None
    else
      var airports :- ParseQuery(ps[0]);
      var date :- Text.StripPrefix(ps[1], "d=");
      var returnDate :-
        if |ps| == 4 then
          match Text.StripPrefix(ps[2], "r=")
          case Some(r) => Some(Some(r))
          case None => None
        else Some(None);
      var adultsText :- Text.StripPrefix(ps[|ps| - 1], "p=");
      var adults :- Decimal.ParseInt(adultsText);
      Some(SearchRequest(airports.0, airports.1, date, returnDate, adults))
  }

  /** Origin and destination read back from the `q` parameter. */
  function ParseQuery(param: string): Option<(string, string)> {
    var q :- Text.StripPrefix(param, "q=" + QueryLead);
    var airports :- Text.SplitOnce(q, QueryJoint);
    var origin :- FormEncoding.UnquotePlus(airports.0);
    var destination :- FormEncoding.UnquotePlus(airports.1);
    Some((origin, destination))
  }

  /** The request a URL with the given `tfs` token stands for. */
  function ParseUrl(tfs: string, url: string): Option<SearchRequest> {
    var rest :- Text.StripPrefix(url, FixedPart(tfs));
    ParseRequestParams(Text.Split(rest, '&'))
  }

  /** The request a search URL stands for. */
  function ParseSearchUrl(url: string): Option<SearchRequest> {
    ParseUrl(TfsToken, url)
  }

  /** What a request looks like once the URL has dropped an empty return date. */
  function Normalize(req: SearchRequest): SearchRequest {
    if HasReturn(req) then req else req.(returnDate := None)
  }

  // ---------------------------------------------------------------------------

  /** The first `%20to%20` in the query text is the one between the airports,
      because encoded text never holds the escape for a space. */
  lemma QueryTextSplits(origin: string, destination: string)
    ensures Text.SplitOnce(QueryText(origin, destination)[|QueryLead|..], QueryJoint)
            == Some((FormEncoding.QuotePlus(origin), FormEncoding.QuotePlus(destination)))
  {
    var e, f := FormEncoding.QuotePlus(origin), FormEncoding.QuotePlus(destination);
    var q := e + QueryJoint + f;
    assert QueryText(origin, destination)[|QueryLead|..] == q;
    assert Text.OccursAt(q, QueryJoint, |e|) by {
      assert q[|e|..|e| + |QueryJoint|] == QueryJoint;
    }
    forall i | 0 <= i < |e|
      ensures !Text.OccursAt(q, QueryJoint, i)
    {
      assert QueryJoint[0] == '%' && QueryJoint[1] == '2' && QueryJoint[2] == '0';
      assert q[i] == e[i];
      if e[i] == '%' {
        assert q[i + 1] == e[i + 1] && q[i + 2] == e[i + 2];
        assert !(q[i + 1] == '2' && q[i + 2] == '0');
      }
      assert !(q[i] == '%' && q[i + 1] == '2' && q[i + 2] == '0');
    }
    var found := Text.FindFrom(q, QueryJoint, 0);
    assert found == Some(|e|);
    assert q[..|e|] == e;
    assert q[|e| + |QueryJoint|..] == f;
  }

  /** The `q` parameter gives back both airports, whatever characters they hold. */
  lemma ParseQueryRoundTrip(origin: string, destination: string)
    ensures ParseQuery("q=" + QueryText(origin, destination)) == Some((origin, destination))
  {
    var param := "q=" + QueryText(origin, destination);
    assert param[|"q=" + QueryLead|..] == QueryText(origin, destination)[|QueryLead|..];
    QueryTextSplits(origin, destination);
    FormEncoding.UnquoteQuotePlus(origin);
    FormEncoding.UnquoteQuotePlus(destination);
  }

  lemma ParseRequestParamsRoundTrip(req: SearchRequest)
    ensures ParseRequestParams(RequestParams(req)) == Some(Normalize(req))
  {
    var ps := RequestParams(req);
    ParseQueryRoundTrip(req.origin, req.destination);
    Decimal.IntRoundTrip(req.adults);
    assert ps[|ps| - 1][2..] == Decimal.IntToString(req.adults);
    assert ps[1][2..] == req.date;
    if HasReturn(req) {
      assert ps[2][2..] == req.returnDate.value;
    }
  }

  lemma RequestParamsHaveNoAmpersand(req: SearchRequest)
    requires '&' !in req.date
    requires req.returnDate.Some? ==> '&' !in req.returnDate.value
    ensures forall k :: 0 <= k < |RequestParams(req)| ==> '&' !in RequestParams(req)[k]
  {
    var adults := Decimal.IntToString(req.adults);
    assert forall k :: 0 <= k < |adults| ==> adults[k] != '&';
  }

  lemma BuildUrlFixedPart(tfs: string, req: SearchRequest)
    ensures BuildUrl(tfs, req) == FixedPart(tfs) + Text.Join(RequestParams(req), '&')
  {
    var ps := Params(tfs, req);
    Text.JoinFirstTwo(ps, '&');
    assert ps[2..] == RequestParams(req);
  }

  lemma {:induction false} ParseBuildUrl(tfs: string, req: SearchRequest)
    requires '&' !in req.date
    requires req.returnDate.Some? ==> '&' !in req.returnDate.value
    ensures ParseUrl(tfs, BuildUrl(tfs, req)) == Some(Normalize(req))
  {
    var ps := RequestParams(req);
    BuildUrlFixedPart(tfs, req);
    RequestParamsHaveNoAmpersand(req);
    Text.SplitJoin(ps, '&');
    ParseRequestParamsRoundTrip(req);
  }

  /** Airport codes such as `JFK`: upper-case letters only. */
  predicate UpperCase(s: string) {
    forall k :: 0 <= k < |s| ==> 'A' <= s[k] <= 'Z'
  }

  /** Upper-case letters are one UTF-8 byte each and are never escaped. */
  lemma {:induction false} QuotePlusUpperCase(s: string)
    requires UpperCase(s)
    ensures FormEncoding.QuotePlus(s) == s
    decreases |s|
  {
    if s != [] {
      QuotePlusUpperCase(s[1..]);
      var b := Utf8.EncodeChar(s[0]);
      var rest := Utf8.Encode(s[1..]);
      assert b == [s[0] as int];
      assert Utf8.Encode(s) == b + rest;
      assert (b + rest)[0] == s[0] as int && (b + rest)[1..] == rest;
      assert FormEncoding.QuoteByte(s[0] as int) == [s[0]];
      assert FormEncoding.QuoteBytes(b + rest) == [s[0]] + s[1..];
      assert [s[0]] + s[1..] == s;
    }
  }

  /** Airport codes appear in the query unchanged. */
  lemma QuotePlusAirportCodes(origin: string, destination: string)
    requires UpperCase(origin) && UpperCase(destination)
    ensures QueryText(origin, destination) == QueryLead + origin + QueryJoint + destination
  {
    QuotePlusUpperCase(origin);
    QuotePlusUpperCase(destination);
  }
}

=== FILE: text.dfy ===
/**
  String helpers the URL is assembled and taken apart with: `"&".join`,
  `str.split`, prefix stripping and locating the first occurrence of a separator.
 */
module Text {
  import opened Options

  /** The total length of `parts`. */
  function TotalLength(parts: seq<string>): nat
    decreases |parts|
  {
    if parts == [] then 0 else |parts[0]| + TotalLength(parts[1..])
  }

  /** `sep.join(parts)` with a one-character separator: the parts in order,
      one separator between each two. */
  function Join(parts: seq<string>, sep: char): (r: string)
    ensures parts == [] ==> r == ""
    ensures parts != [] ==> parts[0] <= r && |r| == TotalLength(parts) + |parts| - 1
    decreases |parts|
  {
    if parts == [] then ""
    else if |parts| == 1 then parts[0]
    else parts[0] + [sep] + Join(parts[1..], sep)
  }

  lemma JoinFirstTwo(parts: seq<string>, sep: char)
    requires |parts| >= 3
    ensures Join(parts, sep) == parts[0] + [sep] + parts[1] + [sep] + Join(parts[2..], sep)
  {
    assert parts[1..][1..] == parts[2..];
  }

  /** Where part `k` starts in the joined text: the parts before it and one
      separator after each of them. */
  function Offset(parts: seq<string>, k: nat): nat
    requires k <= |parts|
  {
    TotalLength(parts[..k]) + k
  }

  lemma OffsetStep(parts: seq<string>, k: nat)
    requires 1 <= k <= |parts|
    ensures Offset(parts, k) == |parts[0]| + 1 + Offset(parts[1..], k - 1)
  {
    assert parts[..k][1..] == parts[1..][..k - 1];
  }

  /** Every part appears in the joined text at its offset, in order, and a
      separator sits right before every part but the first. */
  lemma {:induction false} JoinLayout(parts: seq<string>, sep: char)
    ensures forall k :: 0 <= k < |parts| ==>
              && Offset(parts, k) + |parts[k]| <= |Join(parts, sep)|
              && Join(parts, sep)[Offset(parts, k)..Offset(parts, k) + |parts[k]|] == parts[k]
    ensures forall k :: 0 < k < |parts| ==>
              && Offset(parts, k) <= |Join(parts, sep)|
              && Join(parts, sep)[Offset(parts, k) - 1] == sep
    decreases |parts|
  {
    var r := Join(parts, sep);
    if |parts| == 1 {
      assert Offset(parts, 0) == 0 by { assert parts[..0] == []; }
    } else if |parts| >= 2 {
      var rest := Join(parts[1..], sep);
      var head := parts[0] + [sep];
      assert r == head + rest;
      JoinLayout(parts[1..], sep);
      assert Offset(parts, 0) == 0 by { assert parts[..0] == []; }
      assert r[..|parts[0]|] == parts[0];
      forall k | 1 <= k < |parts|
        ensures Offset(parts, k) + |parts[k]| <= |r|
        ensures r[Offset(parts, k)..Offset(parts, k) + |parts[k]|] == parts[k]
        ensures r[Offset(parts, k) - 1] == sep
      {
        OffsetStep(parts, k);
        var o := Offset(parts[1..], k - 1);
        assert parts[1..][k - 1] == parts[k];
        assert r[|head| + o..|head| + o + |parts[k]|] == rest[o..o + |parts[k]|];
        if k == 1 {
          assert r[|parts[0]|] == sep;
        } else {
          assert r[|head| + o - 1] == rest[o - 1];
        }
      }
    }
  }

  /** `s.split(sep)`: the pieces between separators, always at least one. */
  function Split(s: string, sep: char): (r: seq<string>)
    ensures |r| >= 1
    decreases |s|
  {
    if s == [] then [""]
    else if s[0] == sep then [""] + Split(s[1..], sep)
    else
      var rest := Split(s[1..], sep);
      [[s[0]] + rest[0]] + rest[1..]
  }

  /** The remainder of `s` after `prefix`, or nothing when `s` does not start with it. */
  function StripPrefix(s: string, prefix: string): (r: Option<string>)
    ensures r.Some? <==> prefix <= s
    ensures r.Some? ==> s == prefix + r.value
  {
    if prefix <= s then Some(s[|prefix|..]) else None
  }

  predicate OccursAt(s: string, sep: string, i: nat) {
    i + |sep| <= |s| && s[i..i + |sep|] == sep
  }

  /** The first position at or after `from` where `sep` occurs. */
  function FindFrom(s: string, sep: string, from: nat): (r: Option<nat>)
    ensures r.Some? ==> from <= r.value && OccursAt(s, sep, r.value)
    ensures r.Some? ==> forall i :: from <= i < r.value ==> !OccursAt(s, sep, i)
    ensures r.None? ==> forall i :: from <= i ==> !OccursAt(s, sep, i)
    decreases |s| - from
  {
    if from + |sep| > |s| then None
    else if s[from..from + |sep|] == sep then Some(from)
    else FindFrom(s, sep, from + 1)
  }

  /** `s.partition(sep)` when `sep` occurs: the text before and after its first occurrence. */
  function SplitOnce(s: string, sep: string): (r: Option<(string, string)>)
    ensures r.Some? ==> s == r.value.0 + sep + r.value.1
  {
    match FindFrom(s, sep, 0)
    case None => None
    case Some(i) => Some((s[..i], s[i + |sep|..]))
  }

  lemma {:induction false} SplitWithout(s: string, sep: char)
    requires sep !in s
    ensures Split(s, sep) == [s]
    decreases |s|
  {
    if s != [] {
      SplitWithout(s[1..], sep);
      assert [s[0]] + s[1..] == s;
    }
  }

  lemma {:induction false} SplitAtFirst(a: string, b: string, sep: char)
    requires sep !in a
    ensures Split(a + [sep] + b, sep) == [a] + Split(b, sep)
    decreases |a|
  {
    if a == [] {
      assert a + [sep] + b == [sep] + b;
      assert ([sep] + b)[1..] == b;
    } else {
      var s := a + [sep] + b;
      assert s[1..] == a[1..] + [sep] + b;
      SplitAtFirst(a[1..], b, sep);
      assert [a[0]] + a[1..] == a;
    }
  }

  /** Splitting undoes joining when no part contains the separator. */
  lemma {:induction false} SplitJoin(parts: seq<string>, sep: char)
    requires |parts| >= 1
    requires forall k :: 0 <= k < |parts| ==> sep !in parts[k]
    ensures Split(Join(parts, sep), sep) == parts
    decreases |parts|
  {
    if |parts| == 1 {
      SplitWithout(parts[0], sep);
    } else {
      SplitJoin(parts[1..], sep);
      SplitAtFirst(parts[0], Join(parts[1..], sep), sep);
      assert [parts[0]] + parts[1..] == parts;
    }
  }
}

=== FILE: utf8.dfy ===
/**
  UTF-8, the encoding `quote_plus` applies to a string before escaping its
  bytes. The decoder exists to state the round trip: it accepts everything the
  encoder produces and rejects byte sequences that are not a character.
 */
module Utf8 {
  import opened Options

  type Byte = x: int | 0 <= x < 256

  predicate IsContinuation(b: Byte) {
    0x80 <= b < 0xC0
  }

  /** The six value bits a continuation byte carries. */
  function Payload(b: Byte): int {
    b as int - 0x80
  }

  /** The one to four bytes of `c`, shortest form. */
  function EncodeChar(c: char): (r: seq<Byte>)
    ensures 1 <= |r| <= 4
    ensures (|r| == 1) <==> (c as int) < 0x80
    ensures forall k :: 1 <= k < |r| ==> IsContinuation(r[k])
  {
    var cp := c as int;
    var a := cp / 64;
    var b := a / 64;
    var d := b / 64;
    if cp < 0x80 then [cp]
    else if cp < 0x800 then [0xC0 + a, 0x80 + cp % 64]
    else if cp < 0x10000 then [0xE0 + b, 0x80 + a % 64, 0x80 + cp % 64]
    else [0xF0 + d, 0x80 + b % 64, 0x80 + a % 64, 0x80 + cp % 64]
  }

  function Encode(s: string): seq<Byte>
    decreases |s|
  {
    if s == [] then [] else EncodeChar(s[0]) + Encode(s[1..])
  }

  predicate IsScalar(cp: int) {
    (0 <= cp < 0xD800) || (0xE000 <= cp < 0x11_0000)
  }

  /** How many bytes a sequence starting with lead byte `b` occupies, or 0 if `b` cannot start one. */
  function SequenceLength(b: Byte): nat {
    if b < 0x80 then 1
    else if 0xC0 <= b < 0xE0 then 2
    else if 0xE0 <= b < 0xF0 then 3
    else if 0xF0 <= b < 0xF8 then 4
    else 0
  }

  /** The smallest code point that needs `n` bytes; a smaller one in `n`
      bytes is an overlong form, which is not a character. */
  function MinCodePoint(n: nat): int {
    if n <= 1 then 0 else if n == 2 then 0x80 else if n == 3 then 0x800 else 0x10000
  }

  /** The first character of `bs` and the number of bytes it used. */
  function DecodeFirst(bs: seq<Byte>): (r: Option<(char, nat)>)
    requires |bs| >= 1
    ensures r.Some? ==> 1 <= r.value.1 <= |bs|
    ensures r.Some? ==> IsScalar(r.value.0 as int) && MinCodePoint(r.value.1) <= r.value.0 as int
  {
    var n := SequenceLength(bs[0]);
    if n == 0 || n > |bs| then None
    else if exists k :: 1 <= k < n && !IsContinuation(bs[k]) then None
    else
      var cp: int :=
        if n == 1 then bs[0]
        else if n == 2 then (bs[0] - 0xC0) as int * 64 + Payload(bs[1])
        else if n == 3 then ((bs[0] - 0xE0) as int * 64 + Payload(bs[1])) * 64 + Payload(bs[2])
        else (((bs[0] - 0xF0) as int * 64 + Payload(bs[1])) * 64 + Payload(bs[2])) * 64 + Payload(bs[3]);
      if IsScalar(cp) && MinCodePoint(n) <= cp then Some((cp as char, n)) else None
  }

  function Decode(bs: seq<Byte>): Option<string>
    decreases |bs|
  {
    if bs == [] then Some("")
    else
      match DecodeFirst(bs)
      case None => None
      case Some((c, n)) =>
        match Decode(bs[n..])
        case None => None
        case Some(rest) => Some([c] + rest)
  }

  lemma DecodeEncodedChar(c: char, rest: seq<Byte>)
    ensures DecodeFirst(EncodeChar(c) + rest) == Some((c, |EncodeChar(c)|))
  {
    var e := EncodeChar(c);
    var bs := e + rest;
    assert bs[..|e|] == e;
    var cp := c as int;
    assert cp == (cp / 64) * 64 + cp % 64;
    assert cp / 64 == (cp / 64 / 64) * 64 + (cp / 64) % 64;
    assert cp / 64 / 64 == (cp / 64 / 64 / 64) * 64 + (cp / 64 / 64) % 64;
  }

  /** Decoding undoes encoding. */
  lemma {:induction false} DecodeEncode(s: string)
    ensures Decode(Encode(s)) == Some(s)
    decreases |s|
  {
    if s != [] {
      var e := EncodeChar(s[0]);
      DecodeEncodedChar(s[0], Encode(s[1..]));
      assert (e + Encode(s[1..]))[|e|..] == Encode(s[1..]);
      DecodeEncode(s[1..]);
      assert [s[0]] + s[1..] == s;
    }
  }
}
